=== FILE: README.md ===
# koa-json-logger, modelled in Dafny

koa-json-logger is a Koa middleware that writes one JSON log record per
HTTP transaction through bunyan. It also catches exceptions raised by
downstream handlers, so that internal details never reach the client. The
repository ships it in two variants. Each variant is modelled here as pure
functions over an explicit request context. A log sink is a sequence of
records that those functions append to.

- `values.dfy` (`Values`): optional values and results, bunyan's six level
  names, and the record message. The message is `util.format('%s %s',
  method, originalUrl)`, i.e. method, one space, original url. It comes with
  a parser that reads it back.
- `context.dfy` (`Context`): the Koa context (`Ctx`), the response `Body`
  and its JavaScript truthiness, the downstream outcome (`Completed` or
  `Raised(e)`), and the constructor options. It also has JavaScript `||`
  defaulting and the `log/<name>.log` and `log/<name>-error.log` paths.
- `logger.dfy` (`KoaJsonLogger`): `lib/koa-json-logger.js`. One logger.
  `done` logs a record at the configured level whatever the status. The
  `catch` block logs the exception's stack at error level and answers 500
  `Internal Server Error`. It re-raises only in development mode.
- `logger_orig.dfy` (`KoaJsonLoggerOrig`): `lib/koa-json-logger.orig.js`.
  There are two loggers: an info sink and an error sink. `done` sends a
  status below 400 to the info sink. Any other status goes to the error
  sink, with the body as the error. The `catch` block takes the
  exception's status and logs the exception. It then replaces the body with
  `{status: 500, title: 'Internal Server Error'}` for a 500, and with the
  exception's message otherwise. It never re-raises.

The context a variant receives is the context as the downstream handlers
left it. `Serve` runs one transaction: the `try`/`catch` around `yield
next`, then one call of `done` on the outward context. `ServeAll` runs a
sequence of transactions and collects their records in order. The clock
(`new Date()`) becomes explicit integer timestamps. `process.env.NODE_ENV
=== 'development'` becomes a boolean parameter.

Some behaviour one might expect of such a middleware is absent from the
code, and the model follows the code:
- neither variant assigns correlation ids;
- neither variant has a JSON-API mode;
- neither variant logs the client ip or protocol;
- the original variant does not default a missing exception status to
  500; the current one never reads it;
- the current variant answers every raised exception with 500 and the
  generic body, whatever status the exception carried.

The original variant logs a raised exception with an error status twice
to the error sink: once from `catch` and once from `done`.
`KoaJsonLoggerOrig.RaisedErrorLoggedTwice` states this.

## Model

| member | source | states |
|---|---|---|
| Values.ParseLevel | lib/koa-json-logger.js:66 | `logger[level]` is a logging method exactly for the six bunyan level names; parsing gives back the level whose name it is, and fails only for strings that name no level |
| Values.ParseMessageInverse | lib/koa-json-logger.orig.js:107 | a record message built from a space-free method parses back to exactly that method and original url |
| Values.MessageInjective | lib/koa-json-logger.js:66 | two messages from space-free methods are equal only when method and url both agree |
| Context.OptsOrEmpty | lib/koa-json-logger.js:21 | a missing options object behaves as one with no fields |
| Context.OrElse | lib/koa-json-logger.js:23-24 | JavaScript `or`-defaulting of an option: a missing or empty string gives the fallback, any other string is kept as given |
| Context.StreamsOrElse | lib/koa-json-logger.js:46 | a supplied stream list, even an empty one, replaces the defaults whole |
| Context.InfoPathRoundTrip | lib/koa-json-logger.js:40 | the logger name can be read back from its info path `log/<name>.log` |
| Context.ErrorPathRoundTrip | lib/koa-json-logger.js:34 | the logger name can be read back from its error path `log/<name>-error.log` |
| Context.LogPathsDistinct | lib/koa-json-logger.js:31-44 | distinct names get distinct info files and distinct error files, and a logger's info and error files never coincide |
| Context.InfoErrorPathCollision | lib/koa-json-logger.js:31-44 | the info file of logger `n-error` is the error file of logger `n`, and no other pair of names shares a file across the two kinds |
| KoaJsonLogger.ReqSerializerFields | lib/koa-json-logger.js:6-11 | the request view equals another exactly when method and originalUrl agree, and its url is originalUrl, never the rewritten url |
| KoaJsonLogger.ResSerializerFields | lib/koa-json-logger.js:13-17 | the response view is the status and nothing else |
| KoaJsonLogger.DefaultStreams | lib/koa-json-logger.js:31-44 | exactly two default streams, in order: error to the name's error path, then info to the name's info path, each period `1d` and count 3 |
| KoaJsonLogger.Configure | lib/koa-json-logger.js:19-46 | no options give name `myapp`, level `info` and the default streams; a supplied non-empty name or level is used as given, and a missing or empty one (`'' || 'myapp'`) falls back to the default; supplied streams replace the list whole |
| KoaJsonLogger.ConfigureFixpoint | lib/koa-json-logger.js:21-46 | handing a configuration's own non-empty name, level and streams back in as options reproduces it |
| KoaJsonLogger.Done | lib/koa-json-logger.js:65-67 | one record at the configured level, with no err, the request and response views, and a message that parses back to method and original url; an unknown level name logs nothing and reports that name |
| KoaJsonLogger.DoneLevelIgnoresStatus | lib/koa-json-logger.js:66 | whether `done` logs, and at which level, never depends on the response |
| KoaJsonLogger.Catch | lib/koa-json-logger.js:75-87 | one error-level record whose err is the stack and that has no req/res; outward status 500 and body `Internal Server Error`, nothing else in the context changed; re-raised as a 500 exactly in development mode |
| KoaJsonLogger.CatchDoesNotLeak | lib/koa-json-logger.js:79-81 | the outward response is the same whatever exception was raised |
| KoaJsonLogger.CatchRecordMentionsMessage | lib/koa-json-logger.js:77 | when the stack starts with `name: message`, as an `Error`'s does, the error record's err contains the message |
| KoaJsonLogger.Serve | lib/koa-json-logger.js:61-89 | a completed transaction leaves the context alone and logs exactly `done`'s record; the last record is always `done`'s, at the configured level and name, with the request view and no err; a raised one logs the error record first, then the completion record with status 500; every record carries the request's message; a re-raise happens exactly for a raise in development mode, and it is `ctx.throw(500, e)` on the caught exception |
| KoaJsonLogger.ServeAllAppend | lib/koa-json-logger.js:61-89 | transactions share no state: two batches log the first batch's records followed by the second's |
| KoaJsonLogger.ServeAllCount | lib/koa-json-logger.js:65-87 | with a valid level, n transactions of which k raised log exactly n + k records |
| KoaJsonLogger.ServeRaised | lib/koa-json-logger.js:65-87 | with a valid level, a raised exception gives exactly the `catch` record followed by the completion record of the outward context |
| KoaJsonLogger.TestOptionsConfigure | test/koa-json-logger.spec.js:89-97 | the test's options configure logger `unitTest` at level `info` with exactly the one supplied stream |
| KoaJsonLogger.LoggedErrorResponse | test/koa-json-logger.spec.js:157-179 | the logged-error test: status 500, body `Internal Server Error`, nothing re-raised, two records, the first one's err containing `Oops! Something blew up.` |
| KoaJsonLogger.LoggedErrorRequestRecord | test/koa-json-logger.spec.js:181-186 | the logged-error test: the second record is `unitTest`'s request record with method `GET`, url `/` and message `GET /` |
| KoaJsonLoggerOrig.ReqSerializerFields | lib/koa-json-logger.orig.js:6-14 | the request view equals another exactly when url, headers, method, originalUrl and query agree: those five, unchanged, and nothing else |
| KoaJsonLoggerOrig.ResSerializer | lib/koa-json-logger.orig.js:16-29 | statusCode and responseTime always come from the context; error is present exactly when the status is at least 400 and the body is truthy, and then equals the body |
| KoaJsonLoggerOrig.DefaultInfoStreams | lib/koa-json-logger.orig.js:49-56 | one default info stream on the name's info path, period `1d`, count 3 |
| KoaJsonLoggerOrig.ErrorStreams | lib/koa-json-logger.orig.js:83-90 | the error logger's one stream on the name's error path, period `1d`, count 3 |
| KoaJsonLoggerOrig.Configure | lib/koa-json-logger.orig.js:39-58 | no options give name `myapp` and the default streams; a supplied non-empty name or level is used as given, and a missing or empty one falls back to `myapp` / `info`; supplied streams replace only the info logger's list; the error logger's streams always follow from the name |
| KoaJsonLoggerOrig.StreamsOptionOnlyReplacesInfo | lib/koa-json-logger.orig.js:58 | the error logger and the name do not depend on the streams option |
| KoaJsonLoggerOrig.Done | lib/koa-json-logger.orig.js:99-123 | stores responseTime = now - start (non-negative when now >= start); status below 400 appends one info record with no err and nothing to the error sink; otherwise one error record with the body as err and nothing to the info sink; every record shows the request view, the message and exactly the response view `resSerializer` gives the updated context, so the body appears under res.error only for a truthy body with status at least 400 |
| KoaJsonLoggerOrig.SoftErrorRecordCarriesBody | lib/koa-json-logger.orig.js:31-35 | a soft-error record's err is exactly what the unregistered `errSerializer` would extract (the source defines it but the loggers use bunyan's own error serializer), and a truthy body also appears under res.error |
| KoaJsonLoggerOrig.FriendlyBody | lib/koa-json-logger.orig.js:144-149 | a 500 gets `{status: 500, title: 'Internal Server Error'}`; any other status gets the exception's message |
| KoaJsonLoggerOrig.Catch | lib/koa-json-logger.orig.js:131-161 | outward status is the exception's status and the body is rewritten; one error record with the exception's message, name and stack, built before the rewrite so its res.error is the application's body and its res.responseTime is now - start |
| KoaJsonLoggerOrig.CatchHidesInternalErrors | lib/koa-json-logger.orig.js:142-146 | any two exceptions with status 500 give the same outward response |
| KoaJsonLoggerOrig.Serve | lib/koa-json-logger.orig.js:93-163 | completed: status and body left exactly as the application set them, one record, in the info sink exactly when status < 400; raised: two records, the first an exception record, both in the error sink exactly when the status is at least 400; the completed path is exactly `done`'s result, and the raised path logs `catch`'s exception record followed by `done`'s record for the rewritten context |
| KoaJsonLoggerOrig.RaisedErrorLoggedTwice | lib/koa-json-logger.orig.js:99-140 | a raised exception with an error status gives two error-sink records, the exception and then the rewritten body, and no info record |
| KoaJsonLoggerOrig.ServeIgnoresLevel | lib/koa-json-logger.orig.js:41 | the level option has no effect on what is logged or answered |
| KoaJsonLoggerOrig.ServeWellShaped | lib/koa-json-logger.orig.js:106-121 | one transaction's info records are info level, no err, status below 400; its error records are error level with an error status or an exception |
| KoaJsonLoggerOrig.ServeAllWellShaped | lib/koa-json-logger.orig.js:106-140 | over any sequence of transactions neither sink holds a record of the other kind, and every record's message names its own request |
| KoaJsonLoggerOrig.ServeAllAppend | lib/koa-json-logger.orig.js:93-163 | transactions share no state: two batches append the first batch's records, then the second's, to each sink |
| KoaJsonLoggerOrig.ServeAllCompletedCount | lib/koa-json-logger.orig.js:106-121 | when nothing raises, n transactions write exactly n records, and the info sink gets as many records as there are transactions with status below 400 |

## Left out

- bunyan itself is not modelled. This covers logger construction, stream objects, per-stream level filtering, file rotation and retention. A sink is the sequence of records handed to a logger.
- bunyan's `stdSerializers.err` is not modelled in general. A raised exception's err is its message, name and stack, and a string or body passes through as it is.
- Koa's generator plumbing is not modelled. `yield next` becomes the `Downstream` input value.
- Koa's status and body setters are not modelled. This includes what happens when `e.status` is undefined, so an exception's status is always an integer here.
- The `res.once('finish')` and `res.once('close')` hooks are not modelled. `done` is one explicit call. Both hooks can fire, so no at-most-once guarantee is claimed.
- KoaJsonLogger.Serve: in development mode the re-raised error is answered by Koa's own error handler. `HttpError(500, e)` records the arguments of `this.throw(500, e)`; the status Koa finally answers with is not modelled (Koa's `throw` builds its error with http-errors, which keeps a status the exception already carries over the 500). `done` is modelled on the middleware's outward context.
- KoaJsonLogger.Done: every level string that is not one of the six level names is reported back and logs nothing. In the source, `logger[level]` may instead name another function of the logger (`child`, `emit`, `toString`, ...), which is then called and writes no record; only a string naming no function raises a TypeError. The model does not tell these apart.
- KoaJsonLogger.Serve: a `done` call that logs nothing because of the level is recorded as a fault. What the process does after a TypeError thrown inside an event listener is not modelled.
- `util.format` is not modelled in general. Only its result for `'%s %s'` with two strings is used.
- `new Date()` is replaced by integer timestamps passed in.
- `process.env.NODE_ENV` is replaced by a boolean parameter.
- `console.log(e)` in the original variant is left out, because it only writes to the console.
- The development-mode re-raise in the original variant is commented out in the source, so nothing is re-raised there.
- Response bodies that are buffers, streams, numbers or arbitrary objects are all folded into `Body.Other`, which is truthy.
- The test harness (supertest, fs, readline) is not modelled. Only its asserted outcome for the logged-error test is stated.

=== FILE: context.dfy ===
/** The request context both middleware variants read and write, the
    downstream outcome they react to, and the constructor options with
    the defaulting both variants share. */
module Context {
  import opened Values

  /** A response body. Koa also accepts buffers and streams; every value
      that is not a string is folded into `Other`, which, like any object,
      is truthy. */
  datatype Body =
    | NoBody                               // undefined or null
    | Text(text: string)                   // a string body
    | Problem(status: int, title: string)  // the object `{status, title}`
    | Other(kind: string)                  // any other object

  /** JavaScript truthiness of a body, as in `if (ctx.body)`. */
  predicate Truthy(b: Body)
  {
    match b
    case NoBody => false
    case Text(t) => t != ""
    case Problem(_, _) => true
    case Other(_) => true
  }

  /** The Koa context as the downstream handlers leave it: `verb` is
      `ctx.method`, `header` is `ctx.header`; `responseTime` is a field the
      original variant adds, undefined until it is first set. */
  datatype Ctx = Ctx(
    verb: string,
    originalUrl: string,
    url: string,
    header: map<string, string>,
    query: map<string, string>,
    status: int,
    body: Body,
    responseTime: Option<int>)

  /** The message of every record: method, one space, original url. */
  function MessageOf(ctx: Ctx): string
  {
    Message(ctx.verb, ctx.originalUrl)
  }

  /** A raised exception: `e.status`, `e.name`, `e.message`, `e.stack`. */
  datatype Exception = Exception(status: int, name: string, message: string, stack: string)

  /** What `yield next` did: returned, or threw `e`. */
  datatype Downstream = Completed | Raised(e: Exception)

  /** One bunyan stream descriptor; `path`, `period` and `count` may be
      left out by a caller that supplies its own streams. */
  datatype StreamSpec = StreamSpec(level: string, path: Option<string>, period: Option<string>, count: Option<int>)

  /** The constructor options `opts`; a missing field is `None`. */
  datatype Opts = Opts(name: Option<string>, level: Option<string>, streams: Option<seq<StreamSpec>>)

  const NoOpts := Opts(None, None, None)
  const DefaultName := "myapp"
  const DefaultLevel := "info"
  const RotationPeriod := "1d"
  const RotationCount := 3
  const InternalError := "Internal Server Error"

  /** `opts = opts || {}`: a missing options object behaves as an empty one. */
  function OptsOrEmpty(opts: Option<Opts>): (o: Opts)
    ensures opts.None? ==> o.name.None? && o.level.None? && o.streams.None?
    ensures opts.Some? ==> o == opts.value
  {
    if opts.Some? then opts.value else NoOpts
  }

  /** `s || fallback` on an optional string: a missing or empty string falls
      back, any other string is kept. */
  function OrElse(s: Option<string>, fallback: string): (r: string)
    ensures r == fallback <==> (s.None? || s.value == "" || s.value == fallback)
    ensures r != fallback ==> s == Some(r)
  {
    if s.Some? && s.value != "" then s.value else fallback
  }

  /** `opts.streams || streams`: an array is truthy even when empty, so a
      supplied list always replaces the defaults. */
  function StreamsOrElse(s: Option<seq<StreamSpec>>, fallback: seq<StreamSpec>): (r: seq<StreamSpec>)
    ensures s.Some? ==> r == s.value
    ensures s.None? ==> r == fallback
  {
    if s.Some? then s.value else fallback
  }

  /** The daily-rotated, three-copy stream every default descriptor uses. */
  function RotatingStream(level: string, path: string): StreamSpec
  {
    StreamSpec(level, Some(path), Some(RotationPeriod), Some(RotationCount))
  }

  /** `'log/' + name + '.log'` */
  function InfoPath(name: string): string
  {
    "log/" + name + ".log"
  }

  /** `'log/' + name + '-error.log'` */
  function ErrorPath(name: string): string
  {
    "log/" + name + "-error.log"
  }

  /** Recovers the logger name from an info log path; the inverse of `InfoPath`. */
  function NameOfInfoPath(p: string): (r: Option<string>)
    ensures r.Some? ==> InfoPath(r.value) == p
  {
    if |p| >= 8 && p[..4] == "log/" && p[|p| - 4..] == ".log" then
      assert p == p[..4] + p[4..|p| - 4] + p[|p| - 4..];
      Some(p[4..|p| - 4])
    else None
  }

  /** Recovers the logger name from an error log path; the inverse of `ErrorPath`. */
  function NameOfErrorPath(p: string): (r: Option<string>)
    ensures r.Some? ==> ErrorPath(r.value) == p
  {
    if |p| >= 14 && p[..4] == "log/" && p[|p| - 10..] == "-error.log" then
      assert p == p[..4] + p[4..|p| - 10] + p[|p| - 10..];
      Some(p[4..|p| - 10])
    else None
  }

  /** Every name survives the trip through its info path and back. */
  lemma InfoPathRoundTrip(name: string)
    ensures NameOfInfoPath(InfoPath(name)) == Some(name)
  {
    var p := InfoPath(name);
    assert p[..4] == "log/";
    assert p[|p| - 4..] == ".log";
    assert p[4..|p| - 4] == name;
  }

  /** Every name survives the trip through its error path and back. */
  lemma ErrorPathRoundTrip(name: string)
    ensures NameOfErrorPath(ErrorPath(name)) == Some(name)
  {
    var p := ErrorPath(name);
    assert p[..4] == "log/";
    assert p[|p| - 10..] == "-error.log";
    assert p[4..|p| - 10] == name;
  }

  /** Distinct logger names get distinct info files and distinct error
      files, and one logger's info and error files never coincide. */
  lemma LogPathsDistinct(a: string, b: string)
    ensures InfoPath(a) == InfoPath(b) <==> a == b
    ensures ErrorPath(a) == ErrorPath(b) <==> a == b
    ensures InfoPath(a) != ErrorPath(a)
  {
    InfoPathRoundTrip(a);
    InfoPathRoundTrip(b);
    ErrorPathRoundTrip(a);
    ErrorPathRoundTrip(b);
  }

  /** The two path shapes do meet across names: the info file of logger
      `n-error` is exactly the error file of logger `n`, and that is the
      only way an info file and an error file coincide. */
  lemma InfoErrorPathCollision(a: string, b: string)
    ensures InfoPath(a) == ErrorPath(b) <==> a == b + "-error"
  {
    assert ErrorPath(b) == InfoPath(b + "-error");
    InfoPathRoundTrip(a);
    InfoPathRoundTrip(b + "-error");
  }
}

=== FILE: logger.dfy ===
/** The current variant of the middleware (lib/koa-json-logger.js): one
    bunyan logger; a completion record at the configured level for every
    transaction, plus an error record holding the stack of any exception
    raised downstream, whose client-visible response is replaced by a
    generic 500. */
module KoaJsonLogger {
  import opened Values
  import opened Context

  /** `reqSerializer`: the method, and the url as the client sent it. */
  datatype ReqView = ReqView(verb: string, url: string)

  /** `resSerializer`: the status alone. */
  datatype ResView = ResView(status: int)

  /** One record handed to the logger; `req`, `res` and `err` are present
      only when the logging call supplied them. */
  datatype Record = Record(
    name: string,
    level: Level,
    req: Option<ReqView>,
    res: Option<ResView>,
    err: Option<string>,
    msg: string)

  /** The logger's name, the level name `done` logs at, and its streams. */
  datatype Config = Config(name: string, level: string, streams: seq<StreamSpec>)

  /** The arguments of the `this.throw(500, e)` call made in development
      mode: the status passed and the caught exception. */
  datatype HttpError = HttpError(status: int, cause: Exception)

  function ReqSerializer(ctx: Ctx): ReqView
  {
    ReqView(ctx.verb, ctx.originalUrl)
  }

  function ResSerializer(ctx: Ctx): ResView
  {
    ResView(ctx.status)
  }

  /** The request view holds the method and the original url and nothing
      else: two contexts give the same view exactly when those agree. A
      rewritten `ctx.url` never shows. */
  lemma ReqSerializerFields(c1: Ctx, c2: Ctx)
    ensures ReqSerializer(c1) == ReqSerializer(c2)
        <==> c1.verb == c2.verb && c1.originalUrl == c2.originalUrl
    ensures ReqSerializer(c1).url == c1.originalUrl
  {
  }

  /** The response view is the status and nothing else. */
  lemma ResSerializerFields(c1: Ctx, c2: Ctx)
    ensures ResSerializer(c1) == ResSerializer(c2) <==> c1.status == c2.status
    ensures ResSerializer(c1).status == c1.status
  {
  }

  /** The two default streams: errors to `log/<name>-error.log`, then info
      to `log/<name>.log`, each rotated daily with three copies kept. */
  function DefaultStreams(name: string): (ss: seq<StreamSpec>)
    ensures |ss| == 2
    ensures ss[0].level == "error" && ss[1].level == "info"
    ensures ss[0].path.Some? && NameOfErrorPath(ss[0].path.value) == Some(name)
    ensures ss[1].path.Some? && NameOfInfoPath(ss[1].path.value) == Some(name)
    ensures forall i :: 0 <= i < |ss| ==>
      ss[i].period == Some(RotationPeriod) && ss[i].count == Some(RotationCount)
  {
    ErrorPathRoundTrip(name);
    InfoPathRoundTrip(name);
    [RotatingStream("error", ErrorPath(name)), RotatingStream("info", InfoPath(name))]
  }

  /** The option defaulting of `koaLogger(opts)`. */
  function Configure(opts: Option<Opts>): (cfg: Config)
    ensures opts.None? ==> cfg == Config(DefaultName, DefaultLevel, DefaultStreams(DefaultName))
    ensures opts.Some? && opts.value.streams.Some? ==> cfg.streams == opts.value.streams.value
    ensures opts.Some? && opts.value.streams.None? ==> cfg.streams == DefaultStreams(cfg.name)
    ensures cfg.name != DefaultName ==> opts.Some? && opts.value.name == Some(cfg.name)
    ensures cfg.level != DefaultLevel ==> opts.Some? && opts.value.level == Some(cfg.level)
    ensures opts.Some? && opts.value.name.Some? && opts.value.name.value != "" ==> cfg.name == opts.value.name.value
    ensures opts.Some? && opts.value.level.Some? && opts.value.level.value != "" ==> cfg.level == opts.value.level.value
    ensures opts.None? || opts.value.name.None? || opts.value.name.value == "" ==> cfg.name == DefaultName
    ensures opts.None? || opts.value.level.None? || opts.value.level.value == "" ==> cfg.level == DefaultLevel
  {
    var o := OptsOrEmpty(opts);
    var name := OrElse(o.name, DefaultName);
    Config(name, OrElse(o.level, DefaultLevel), StreamsOrElse(o.streams, DefaultStreams(name)))
  }

  /** A configuration is a fixed point: handing its own name, level and
      streams back in as options reproduces it, as long as the name and
      level are not empty (an empty string falls back to the default). */
  lemma ConfigureFixpoint(cfg: Config)
    requires cfg.name != "" && cfg.level != ""
    ensures Configure(Some(Opts(Some(cfg.name), Some(cfg.level), Some(cfg.streams)))) == cfg
  {
  }

  /** The `done` closure: one record at the configured level, whatever the
      status. A level string that is not one of bunyan's six level names
      logs nothing and is reported back: `logger[level]` is then either
      undefined, and calling it is a TypeError, or some other function of
      the logger, which is called and writes no record. */
  function Done(cfg: Config, ctx: Ctx): (r: Result<Record, string>)
    ensures r.Err? <==> ParseLevel(cfg.level).None?
    ensures r.Err? ==> r.error == cfg.level
    ensures r.Ok? ==> LevelName(r.value.level) == cfg.level && r.value.name == cfg.name
    ensures r.Ok? ==> r.value.req == Some(ReqSerializer(ctx)) && r.value.res == Some(ResSerializer(ctx))
    ensures r.Ok? ==> r.value.err.None?
    ensures r.Ok? && ' ' !in ctx.verb ==> ParseMessage(r.value.msg) == Some((ctx.verb, ctx.originalUrl))
  {
    match ParseLevel(cfg.level)
    case None => Err(cfg.level)
    case Some(l) =>
      assert ' ' !in ctx.verb ==> ParseMessage(MessageOf(ctx)) == Some((ctx.verb, ctx.originalUrl)) by {
        if ' ' !in ctx.verb {
          ParseMessageInverse(ctx.verb, ctx.originalUrl);
        }
      }
      Ok(Record(cfg.name, l, Some(ReqSerializer(ctx)), Some(ResSerializer(ctx)), None, MessageOf(ctx)))
  }

  /** The level of the completion record never depends on the response. */
  lemma DoneLevelIgnoresStatus(cfg: Config, c1: Ctx, c2: Ctx)
    ensures Done(cfg, c1).Ok? <==> Done(cfg, c2).Ok?
    ensures Done(cfg, c1).Ok? ==> Done(cfg, c1).value.level == Done(cfg, c2).value.level
  {
  }

  /** What the `catch` block leaves behind: the outward context, the error
      record it logged, and the error it re-raises, if any. */
  datatype Caught = Caught(ctx: Ctx, record: Record, rethrown: Option<HttpError>)

  /** The `catch` block: log the stack at error level, answer 500 with a
      generic body, and re-raise only in development mode. */
  function Catch(cfg: Config, ctx: Ctx, e: Exception, development: bool): (c: Caught)
    ensures c.ctx == ctx.(status := 500, body := Text(InternalError))
    ensures c.record.level == Error && c.record.name == cfg.name
    ensures c.record.err == Some(e.stack)
    ensures c.record.req.None? && c.record.res.None?
    ensures c.record.msg == MessageOf(ctx)
    ensures c.rethrown.Some? <==> development
    ensures c.rethrown.Some? ==> c.rethrown.value == HttpError(500, e)
  {
    var rec := Record(cfg.name, Error, None, None, Some(e.stack), MessageOf(ctx));
    Caught(ctx.(status := 500, body := Text(InternalError)), rec, if development then Some(HttpError(500, e)) else None)
  }

  /** Nothing about the exception reaches the client: two different
      exceptions yield the same outward response. */
  lemma CatchDoesNotLeak(cfg: Config, ctx: Ctx, e1: Exception, e2: Exception, development: bool)
    ensures Catch(cfg, ctx, e1, development).ctx == Catch(cfg, ctx, e2, development).ctx
    ensures Catch(cfg, ctx, e1, development).ctx.status == 500
  {
  }

  /** `t` occurs in `s` starting at index `k`. */
  predicate OccursAt(t: string, s: string, k: nat)
  {
    k + |t| <= |s| && s[k..k + |t|] == t
  }

  /** A stack as an `Error` writes it: `name: message`, then the frames. */
  predicate StackHasHeader(e: Exception)
  {
    var header := e.name + ": " + e.message;
    |header| <= |e.stack| && e.stack[..|header|] == header
  }

  /** A stack built as `name: message` followed by frames has that header. */
  lemma StandardStackHasHeader(e: Exception, frames: string)
    requires e.stack == e.name + ": " + e.message + frames
    ensures StackHasHeader(e)
  {
    var header := e.name + ": " + e.message;
    assert e.stack[..|header|] == header;
  }

  /** The error record of an exception with a standard stack mentions the
      exception's message. */
  lemma CatchRecordMentionsMessage(cfg: Config, ctx: Ctx, e: Exception, development: bool)
    requires StackHasHeader(e)
    ensures OccursAt(e.message, Catch(cfg, ctx, e, development).record.err.value, |e.name| + 2)
  {
    var header := e.name + ": " + e.message;
    var k := |e.name| + 2;
    assert e.stack[k..k + |e.message|] == header[k..];
  }

  /** One request through the middleware; `done` is called once on the
      context as the response goes out. */
  datatype Tx = Tx(ctx: Ctx, downstream: Downstream)

  /** The outward context, every record logged in order, the re-raised
      error if any, and the level string `done` failed on if it did. */
  datatype Served = Served(ctx: Ctx, records: seq<Record>, rethrown: Option<HttpError>, fault: Option<string>)

  function DoneRecords(cfg: Config, ctx: Ctx): seq<Record>
  {
    match Done(cfg, ctx)
    case Ok(r) => [r]
    case Err(_) => []
  }

  /** One transaction: the `try`/`catch` around `yield next`, then `done`. */
  function Serve(cfg: Config, tx: Tx, development: bool): (s: Served)
    ensures tx.downstream.Completed? ==> s.ctx == tx.ctx && s.rethrown.None?
    ensures tx.downstream.Raised? ==> s.ctx.status == 500 && s.ctx.body == Text(InternalError)
    ensures s.rethrown.Some? <==> tx.downstream.Raised? && development
    ensures s.fault.Some? <==> ParseLevel(cfg.level).None?
    ensures |s.records| == (if tx.downstream.Raised? then 1 else 0) + (if s.fault.None? then 1 else 0)
    ensures tx.downstream.Raised? ==> s.records[0].level == Error && s.records[0].err == Some(tx.downstream.e.stack)
    ensures s.fault.None? ==> s.records[|s.records| - 1].res == Some(ResView(s.ctx.status))
    ensures forall i :: 0 <= i < |s.records| ==> s.records[i].msg == MessageOf(tx.ctx)
    ensures tx.downstream.Completed? && s.fault.None? ==> s.records == [Done(cfg, tx.ctx).value]
    ensures s.fault.None? ==> var last := s.records[|s.records| - 1];
      LevelName(last.level) == cfg.level && last.name == cfg.name && last.req == Some(ReqSerializer(tx.ctx)) && last.err.None?
    ensures s.rethrown.Some? ==> s.rethrown.value == HttpError(500, tx.downstream.e)
  {
    match tx.downstream
    case Completed =>
      var d := Done(cfg, tx.ctx);
      Served(tx.ctx, DoneRecords(cfg, tx.ctx), None, if d.Err? then Some(d.error) else None)
    case Raised(e) =>
      var c := Catch(cfg, tx.ctx, e, development);
      var d := Done(cfg, c.ctx);
      Served(c.ctx, [c.record] + DoneRecords(cfg, c.ctx), c.rethrown, if d.Err? then Some(d.error) else None)
  }

  /** The records of a sequence of transactions, in order. */
  function ServeAll(cfg: Config, txs: seq<Tx>, development: bool): seq<Record>
  {
    if |txs| == 0 then []
    else Serve(cfg, txs[0], development).records + ServeAll(cfg, txs[1..], development)
  }

  function RaisedCount(txs: seq<Tx>): nat
  {
    if |txs| == 0 then 0
    else (if txs[0].downstream.Raised? then 1 else 0) + RaisedCount(txs[1..])
  }

  /** Transactions share no state: serving two batches one after the other
      logs the first batch's records followed by the second's. */
  lemma {:induction false} ServeAllAppend(cfg: Config, a: seq<Tx>, b: seq<Tx>, development: bool)
    ensures ServeAll(cfg, a + b, development) == ServeAll(cfg, a, development) + ServeAll(cfg, b, development)
    decreases |a|
  {
    if |a| == 0 {
      assert a + b == b;
    } else {
      assert (a + b)[1..] == a[1..] + b;
      ServeAllAppend(cfg, a[1..], b, development);
    }
  }

  /** With a valid level, every transaction logs one completion record and
      each raised exception one more. */
  lemma {:induction false} ServeAllCount(cfg: Config, txs: seq<Tx>, development: bool)
    requires ParseLevel(cfg.level).Some?
    ensures |ServeAll(cfg, txs, development)| == |txs| + RaisedCount(txs)
    decreases |txs|
  {
    if |txs| > 0 {
      ServeAllCount(cfg, txs[1..], development);
    }
  }

  /** The options of the logged-error test: `{name: 'unitTest', streams:
      [{level: 'info', path: 'log/test.log'}]}`. */
  function TestOptions(): Opts
  {
    Opts(Some("unitTest"), None, Some([StreamSpec("info", Some("log/test.log"), None, None)]))
  }

  /** The test's options configure logger `unitTest` at level `info` with
      the one supplied stream. */
  lemma TestOptionsConfigure()
    ensures Configure(Some(TestOptions())) == Config("unitTest", "info", TestOptions().streams.value)
  {
  }

  /** A raised exception with a valid level: the `catch` record, then the
      completion record of the outward context. */
  lemma ServeRaised(cfg: Config, ctx: Ctx, e: Exception, development: bool)
    requires ParseLevel(cfg.level).Some?
    ensures var c := Catch(cfg, ctx, e, development);
      var s := Serve(cfg, Tx(ctx, Raised(e)), development);
      && Done(cfg, c.ctx).Ok?
      && s.ctx == c.ctx && s.rethrown == c.rethrown
      && s.records == [c.record, Done(cfg, c.ctx).value]
  {
  }

  /** The request of the logged-error test: `GET /`. */
  function TestCtx(): Ctx
  {
    Ctx("GET", "/", "/", map[], map[], 404, NoBody, None)
  }

  /** The exception of the logged-error test, `new Error('Oops! Something
      blew up.')`, whose stack is its header followed by some frames. A
      plain `Error` carries no status; the 500 here is arbitrary, since this
      variant's `catch` block never reads `e.status`. */
  function TestException(frames: string): Exception
  {
    var name := "Error";
    var message := "Oops! Something blew up.";
    Exception(500, name, message, name + ": " + message + frames)
  }

  /** The test exception's stack starts with `Error: ` and its message. */
  lemma TestStackHasHeader(frames: string)
    ensures StackHasHeader(TestException(frames))
  {
    var e := TestException(frames);
    StandardStackHasHeader(e, frames);
  }

  /** The logged-error test, outside development mode: the client sees 500
      and `Internal Server Error`, and the first of the two records has an
      `err` containing the exception's message. */
  lemma LoggedErrorResponse(frames: string)
    ensures
      var s := Serve(Configure(Some(TestOptions())), Tx(TestCtx(), Raised(TestException(frames))), false);
      && s.ctx.status == 500 && s.ctx.body == Text("Internal Server Error")
      && s.rethrown.None?
      && |s.records| == 2
      && OccursAt("Oops! Something blew up.", s.records[0].err.value, 7)
  {
    TestOptionsConfigure();
    var cfg := Configure(Some(TestOptions()));
    var e := TestException(frames);
    TestStackHasHeader(frames);
    ParseLevelName(Info);
    ServeRaised(cfg, TestCtx(), e, false);
    var c := Catch(cfg, TestCtx(), e, false);
    CatchRecordMentionsMessage(cfg, TestCtx(), e, false);
    assert OccursAt(e.message, c.record.err.value, |e.name| + 2);
    assert Serve(cfg, Tx(TestCtx(), Raised(e)), false).records[0] == c.record;
  }

  /** The logged-error test: the second record is the request record of
      logger `unitTest`, method `GET`, url `/`, message `GET /`. */
  lemma LoggedErrorRequestRecord(frames: string)
    ensures
      var s := Serve(Configure(Some(TestOptions())), Tx(TestCtx(), Raised(TestException(frames))), false);
      && |s.records| == 2
      && s.records[1].name == "unitTest"
      && s.records[1].req == Some(ReqView("GET", "/"))
      && s.records[1].msg == "GET /"
  {
    TestOptionsConfigure();
    var cfg := Configure(Some(TestOptions()));
    ParseLevelName(Info);
    assert Message("GET", "/") == "GET /";
    ServeRaised(cfg, TestCtx(), TestException(frames), false);
  }
}

=== FILE: logger_orig.dfy ===
/** The original variant of the middleware (lib/koa-json-logger.orig.js):
    two bunyan loggers, one per sink. `done` routes each completed
    transaction to the info sink (status below 400) or the error sink (the
    body standing in for the error); the `catch` block logs a raised
    exception with its status, message and stack, and replaces the body
    with a friendly one. Nothing is ever re-raised. */
module KoaJsonLoggerOrig {
  import opened Values
  import opened Context

  /** `reqSerializer`: five fields copied from the context. */
  datatype ReqView = ReqView(
    url: string,
    headers: map<string, string>,
    verb: string,
    originalUrl: string,
    query: map<string, string>)

  /** `resSerializer`: status and response time, and the body under
      `error` when the response is an error and has a body. */
  datatype ResView = ResView(statusCode: int, responseTime: Option<int>, error: Option<Body>)

  /** `errSerializer`: the body under `error`. */
  datatype ErrView = ErrView(error: Body)

  /** The `err` field of a record: absent, the body of a response that
      signalled an error without raising, or a raised exception as bunyan's
      error serializer renders it. */
  datatype ErrField =
    | NoErr
    | BodyErr(body: Body)
    | ExcErr(message: string, name: string, stack: string)

  datatype Record = Record(name: string, level: Level, req: ReqView, res: ResView, err: ErrField, msg: string)

  /** The records one step appends to the info logger and to the error logger. */
  datatype Sinks = Sinks(info: seq<Record>, error: seq<Record>)

  const Empty := Sinks([], [])

  function Concat(a: Sinks, b: Sinks): Sinks
  {
    Sinks(a.info + b.info, a.error + b.error)
  }

  /** Both loggers' name, the level option (computed, never used), the info
      logger's streams and the error logger's streams. */
  datatype Config = Config(name: string, level: string, infoStreams: seq<StreamSpec>, errorStreams: seq<StreamSpec>)

  function ReqSerializer(ctx: Ctx): (v: ReqView)
  {
    ReqView(ctx.url, ctx.header, ctx.verb, ctx.originalUrl, ctx.query)
  }

  /** The request view copies the five fields unchanged and adds nothing:
      two contexts give the same view exactly when those five agree, so
      status, body and response time never show in it. */
  lemma ReqSerializerFields(c1: Ctx, c2: Ctx)
    ensures ReqSerializer(c1) == ReqSerializer(c2)
        <==> && c1.url == c2.url && c1.header == c2.header && c1.verb == c2.verb
             && c1.originalUrl == c2.originalUrl && c1.query == c2.query
  {
  }

  function ResSerializer(ctx: Ctx): (v: ResView)
    ensures v.statusCode == ctx.status && v.responseTime == ctx.responseTime
    ensures v.error.Some? <==> ctx.status >= 400 && Truthy(ctx.body)
    ensures v.error.Some? ==> v.error.value == ctx.body
  {
    ResView(ctx.status, ctx.responseTime, if ctx.status >= 400 && Truthy(ctx.body) then Some(ctx.body) else None)
  }

  /** `errSerializer` is defined but never registered: the loggers render
      `err` with bunyan's own serializer. It is kept to compare with what
      `done` logs for a response that signals an error without raising. */
  function ErrSerializer(ctx: Ctx): (v: ErrView)
  {
    ErrView(ctx.body)
  }

  /** The single default info stream: `log/<name>.log`, rotated daily, three
      copies kept. */
  function DefaultInfoStreams(name: string): (ss: seq<StreamSpec>)
    ensures |ss| == 1 && ss[0].level == "info"
    ensures ss[0].path.Some? && NameOfInfoPath(ss[0].path.value) == Some(name)
    ensures ss[0].period == Some(RotationPeriod) && ss[0].count == Some(RotationCount)
  {
    InfoPathRoundTrip(name);
    [RotatingStream("info", InfoPath(name))]
  }

  /** The error logger's fixed stream: `log/<name>-error.log`, rotated daily,
      three copies kept. */
  function ErrorStreams(name: string): (ss: seq<StreamSpec>)
    ensures |ss| == 1 && ss[0].level == "error"
    ensures ss[0].path.Some? && NameOfErrorPath(ss[0].path.value) == Some(name)
    ensures ss[0].period == Some(RotationPeriod) && ss[0].count == Some(RotationCount)
  {
    ErrorPathRoundTrip(name);
    [RotatingStream("error", ErrorPath(name))]
  }

  /** The option defaulting of `koaLogger(opts)`: `opts.streams` replaces
      only the info logger's streams. */
  function Configure(opts: Option<Opts>): (cfg: Config)
    ensures opts.None? ==> cfg == Config(DefaultName, DefaultLevel, DefaultInfoStreams(DefaultName), ErrorStreams(DefaultName))
    ensures opts.Some? && opts.value.streams.Some? ==> cfg.infoStreams == opts.value.streams.value
    ensures opts.Some? && opts.value.streams.None? ==> cfg.infoStreams == DefaultInfoStreams(cfg.name)
    ensures cfg.errorStreams == ErrorStreams(cfg.name)
    ensures cfg.name != DefaultName ==> opts.Some? && opts.value.name == Some(cfg.name)
    ensures opts.Some? && opts.value.name.Some? && opts.value.name.value != "" ==> cfg.name == opts.value.name.value
    ensures opts.None? || opts.value.name.None? || opts.value.name.value == "" ==> cfg.name == DefaultName
    ensures opts.Some? && opts.value.level.Some? && opts.value.level.value != "" ==> cfg.level == opts.value.level.value
    ensures opts.None? || opts.value.level.None? || opts.value.level.value == "" ==> cfg.level == DefaultLevel
  {
    var o := OptsOrEmpty(opts);
    var name := OrElse(o.name, DefaultName);
    Config(name, OrElse(o.level, DefaultLevel), StreamsOrElse(o.streams, DefaultInfoStreams(name)), ErrorStreams(name))
  }

  /** Supplying streams never touches the error logger: it depends on the
      name alone. */
  lemma StreamsOptionOnlyReplacesInfo(name: Option<string>, level: Option<string>, s1: Option<seq<StreamSpec>>, s2: Option<seq<StreamSpec>>)
    ensures Configure(Some(Opts(name, level, s1))).errorStreams == Configure(Some(Opts(name, level, s2))).errorStreams
    ensures Configure(Some(Opts(name, level, s1))).name == Configure(Some(Opts(name, level, s2))).name
  {
  }

  /** A record built from the context: request and response views and the
      message all read the same context. */
  function RecordOf(cfg: Config, level: Level, ctx: Ctx, err: ErrField): Record
  {
    Record(cfg.name, level, ReqSerializer(ctx), ResSerializer(ctx), err, MessageOf(ctx))
  }

  /** The `done` closure, called at time `now` for a transaction started at
      `start`: store the response time, then route by status. */
  function Done(cfg: Config, ctx: Ctx, start: int, now: int): (r: (Ctx, Sinks))
    ensures r.0 == ctx.(responseTime := Some(now - start))
    ensures now >= start ==> r.0.responseTime.value >= 0
    ensures ctx.status < 400 ==> |r.1.info| == 1 && |r.1.error| == 0
    ensures ctx.status >= 400 ==> |r.1.info| == 0 && |r.1.error| == 1
    ensures ctx.status < 400 ==> r.1.info[0].level == Info && r.1.info[0].err == NoErr
    ensures ctx.status >= 400 ==> r.1.error[0].level == Error && r.1.error[0].err == BodyErr(ctx.body)
    ensures forall rec :: rec in r.1.info + r.1.error ==>
      rec.res.statusCode == ctx.status && rec.res.responseTime == Some(now - start)
      && rec.req == ReqSerializer(ctx) && rec.msg == MessageOf(ctx) && rec.name == cfg.name
      && rec.res == ResSerializer(r.0)
  {
    var c := ctx.(responseTime := Some(now - start));
    if c.status < 400 then (c, Sinks([RecordOf(cfg, Info, c, NoErr)], []))
    else (c, Sinks([], [RecordOf(cfg, Error, c, BodyErr(c.body))]))
  }

  /** A response that signals an error without raising is logged with the
      body as its error, exactly what `errSerializer` would extract, and the
      same body appears again under the response view's `error` when it is
      truthy. */
  lemma SoftErrorRecordCarriesBody(cfg: Config, ctx: Ctx, start: int, now: int)
    requires ctx.status >= 400
    ensures Done(cfg, ctx, start, now).1.error[0].err == BodyErr(ErrSerializer(ctx).error)
    ensures Truthy(ctx.body) ==> Done(cfg, ctx, start, now).1.error[0].res.error == Some(ctx.body)
  {
  }

  /** The body the `catch` block writes: a fixed object for a 500, the
      exception's message otherwise. */
  function FriendlyBody(e: Exception): (b: Body)
    ensures e.status == 500 ==> b == Problem(500, InternalError)
    ensures e.status != 500 ==> b == Text(e.message)
  {
    if e.status == 500 then Problem(500, InternalError) else Text(e.message)
  }

  /** The `catch` block, at time `now`: take the exception's status, log it
      to the error sink (the record still sees the body the application
      left), then replace the body. */
  function Catch(cfg: Config, ctx: Ctx, e: Exception, start: int, now: int): (r: (Ctx, Sinks))
    ensures r.0 == ctx.(status := e.status, responseTime := Some(now - start), body := FriendlyBody(e))
    ensures r.1.info == [] && |r.1.error| == 1
    ensures r.1.error[0].level == Error && r.1.error[0].name == cfg.name
    ensures r.1.error[0].err == ExcErr(e.message, e.name, e.stack)
    ensures r.1.error[0].res.statusCode == e.status && r.1.error[0].res.responseTime == Some(now - start)
    ensures r.1.error[0].res.error == (if e.status >= 400 && Truthy(ctx.body) then Some(ctx.body) else None)
    ensures r.1.error[0].req == ReqSerializer(ctx) && r.1.error[0].msg == MessageOf(ctx)
  {
    var c := ctx.(status := e.status, responseTime := Some(now - start));
    var rec := RecordOf(cfg, Error, c, ExcErr(e.message, e.name, e.stack));
    (c.(body := FriendlyBody(e)), Sinks([], [rec]))
  }

  /** A 500 reveals nothing of the exception to the client: any two
      exceptions with status 500 give the same outward response. */
  lemma CatchHidesInternalErrors(cfg: Config, ctx: Ctx, e1: Exception, e2: Exception, start: int, now: int)
    requires e1.status == 500 && e2.status == 500
    ensures Catch(cfg, ctx, e1, start, now).0 == Catch(cfg, ctx, e2, start, now).0
    ensures Catch(cfg, ctx, e1, start, now).0.body == Problem(500, InternalError)
  {
  }

  /** Start, the moment the `catch` block runs, and the moment `done` runs. */
  datatype Times = Times(start: int, caught: int, finished: int)

  datatype Tx = Tx(ctx: Ctx, downstream: Downstream, times: Times)

  /** One transaction: the `try`/`catch` around `yield next`, then `done`
      once on the outward context. */
  function Serve(cfg: Config, tx: Tx): (r: (Ctx, Sinks))
    ensures tx.downstream.Completed? ==> r.0 == tx.ctx.(responseTime := Some(tx.times.finished - tx.times.start))
    ensures tx.downstream.Completed? ==> |r.1.info| + |r.1.error| == 1
    ensures tx.downstream.Completed? ==> (|r.1.info| == 1 <==> tx.ctx.status < 400)
    ensures tx.downstream.Raised? ==> |r.1.info| + |r.1.error| == 2
    ensures tx.downstream.Raised? ==> r.0.status == tx.downstream.e.status && r.0.body == FriendlyBody(tx.downstream.e)
    ensures tx.downstream.Raised? ==> |r.1.error| >= 1 && r.1.error[0].err.ExcErr?
    ensures tx.downstream.Raised? ==> (|r.1.error| == 2 <==> tx.downstream.e.status >= 400)
    ensures tx.times.start <= tx.times.finished ==> r.0.responseTime.Some? && r.0.responseTime.value >= 0
    ensures tx.downstream.Completed? ==> r == Done(cfg, tx.ctx, tx.times.start, tx.times.finished)
    ensures tx.downstream.Raised? ==>
      var c := Catch(cfg, tx.ctx, tx.downstream.e, tx.times.start, tx.times.caught);
      var d := Done(cfg, c.0, tx.times.start, tx.times.finished);
      && r.0 == d.0 && r.1.error[0] == c.1.error[0]
      && r.1.info == d.1.info && r.1.error[1..] == d.1.error
  {
    match tx.downstream
    case Completed => Done(cfg, tx.ctx, tx.times.start, tx.times.finished)
    case Raised(e) =>
      var (c, caught) := Catch(cfg, tx.ctx, e, tx.times.start, tx.times.caught);
      var (c', done) := Done(cfg, c, tx.times.start, tx.times.finished);
      (c', Concat(caught, done))
  }

  /** A raised exception carrying an error status is logged twice to the
      error sink: first by the `catch` block with the exception and the body
      the application left, then by `done` with the rewritten body as its
      error. Nothing reaches the info sink. */
  lemma RaisedErrorLoggedTwice(cfg: Config, tx: Tx)
    requires tx.downstream.Raised? && tx.downstream.e.status >= 400
    ensures var s := Serve(cfg, tx).1;
      && s.info == [] && |s.error| == 2
      && s.error[0].err == ExcErr(tx.downstream.e.message, tx.downstream.e.name, tx.downstream.e.stack)
      && s.error[1].err == BodyErr(FriendlyBody(tx.downstream.e))
      && s.error[0].msg == s.error[1].msg
  {
  }

  /** The level option has no effect in this variant. */
  lemma ServeIgnoresLevel(cfg: Config, tx: Tx, level: string)
    ensures Serve(cfg.(level := level), tx) == Serve(cfg, tx)
  {
  }

  /** The records a sequence of transactions appends to the two sinks,
      `step` giving what one transaction appends. */
  function Gather(step: Tx -> Sinks, txs: seq<Tx>): Sinks
  {
    if |txs| == 0 then Empty
    else Concat(step(txs[0]), Gather(step, txs[1..]))
  }

  /** The records a sequence of transactions appends to the two sinks. */
  function ServeAll(cfg: Config, txs: seq<Tx>): Sinks
  {
    Gather(tx => Serve(cfg, tx).1, txs)
  }

  /** What every info-sink record looks like: info level, no error, a
      non-error status, a message naming its own request. */
  predicate InfoShaped(r: Record)
  {
    r.level == Info && r.err == NoErr && r.res.statusCode < 400 && r.res.error.None?
    && r.msg == Message(r.req.verb, r.req.originalUrl)
  }

  /** What every error-sink record looks like: error level, and either an
      error status or a raised exception behind it. */
  predicate ErrorShaped(r: Record)
  {
    r.level == Error && (r.res.statusCode >= 400 || r.err.ExcErr?)
    && r.msg == Message(r.req.verb, r.req.originalUrl)
  }

  predicate WellShaped(s: Sinks)
  {
    && (forall i :: 0 <= i < |s.info| ==> InfoShaped(s.info[i]))
    && (forall i :: 0 <= i < |s.error| ==> ErrorShaped(s.error[i]))
  }

  lemma ConcatWellShaped(a: Sinks, b: Sinks)
    requires WellShaped(a) && WellShaped(b)
    ensures WellShaped(Concat(a, b))
  {
    var c := Concat(a, b);
    forall i | 0 <= i < |c.info|
      ensures InfoShaped(c.info[i])
    {
      if i >= |a.info| {
        assert c.info[i] == b.info[i - |a.info|];
      }
    }
    forall i | 0 <= i < |c.error|
      ensures ErrorShaped(c.error[i])
    {
      if i >= |a.error| {
        assert c.error[i] == b.error[i - |a.error|];
      }
    }
  }

  /** One transaction appends only well-shaped records. */
  lemma ServeWellShaped(cfg: Config, tx: Tx)
    ensures WellShaped(Serve(cfg, tx).1)
  {
    match tx.downstream
    case Completed =>
    case Raised(e) =>
      var (c, caught) := Catch(cfg, tx.ctx, e, tx.times.start, tx.times.caught);
      var (c', done) := Done(cfg, c, tx.times.start, tx.times.finished);
      ConcatWellShaped(caught, done);
  }

  lemma {:induction false} GatherWellShaped(step: Tx -> Sinks, txs: seq<Tx>)
    requires forall tx :: WellShaped(step(tx))
    ensures WellShaped(Gather(step, txs))
    decreases |txs|
  {
    if |txs| > 0 {
      GatherWellShaped(step, txs[1..]);
      ConcatWellShaped(step(txs[0]), Gather(step, txs[1..]));
    }
  }

  /** However many transactions are served, neither sink ever holds a
      record of the other's kind. */
  lemma ServeAllWellShaped(cfg: Config, txs: seq<Tx>)
    ensures WellShaped(ServeAll(cfg, txs))
  {
    var step := tx => Serve(cfg, tx).1;
    forall tx
      ensures WellShaped(step(tx))
    {
      ServeWellShaped(cfg, tx);
    }
    GatherWellShaped(step, txs);
  }

  lemma ConcatAssoc(x: Sinks, y: Sinks, z: Sinks)
    ensures Concat(x, Concat(y, z)) == Concat(Concat(x, y), z)
  {
    assert x.info + (y.info + z.info) == (x.info + y.info) + z.info;
    assert x.error + (y.error + z.error) == (x.error + y.error) + z.error;
  }

  lemma {:induction false} GatherAppend(step: Tx -> Sinks, a: seq<Tx>, b: seq<Tx>)
    ensures Gather(step, a + b) == Concat(Gather(step, a), Gather(step, b))
    decreases |a|
  {
    if |a| == 0 {
      assert a + b == b;
    } else {
      assert (a + b)[0] == a[0];
      assert (a + b)[1..] == a[1..] + b;
      GatherAppend(step, a[1..], b);
      ConcatAssoc(step(a[0]), Gather(step, a[1..]), Gather(step, b));
    }
  }

  /** Transactions share no state: serving two batches one after the other
      appends the first batch's records, then the second's, to each sink. */
  lemma ServeAllAppend(cfg: Config, a: seq<Tx>, b: seq<Tx>)
    ensures ServeAll(cfg, a + b) == Concat(ServeAll(cfg, a), ServeAll(cfg, b))
  {
    GatherAppend(tx => Serve(cfg, tx).1, a, b);
  }

  function InfoCount(txs: seq<Tx>): nat
  {
    if |txs| == 0 then 0
    else (if txs[0].downstream.Completed? && txs[0].ctx.status < 400 then 1 else 0) + InfoCount(txs[1..])
  }

  /** When no handler raises, each transaction writes exactly one record,
      and the info sink receives as many records as there are transactions
      whose status is below 400. */
  lemma {:induction false} ServeAllCompletedCount(cfg: Config, txs: seq<Tx>)
    requires forall i :: 0 <= i < |txs| ==> txs[i].downstream.Completed?
    ensures |ServeAll(cfg, txs).info| + |ServeAll(cfg, txs).error| == |txs|
    ensures |ServeAll(cfg, txs).info| == InfoCount(txs)
    decreases |txs|
  {
    if |txs| > 0 {
      ServeAllCompletedCount(cfg, txs[1..]);
    }
  }
}

=== FILE: values.dfy ===
/** Values shared by both variants of the middleware: optional values,
    bunyan's level names, and the `'%s %s'` message every record carries. */
module Values {

  datatype Option<+T> = None | Some(value: T)

  datatype Result<+T, +E> = Ok(value: T) | Err(error: E)

  /** The six logging methods of a bunyan logger, lowest severity first. */
  datatype Level = Trace | Debug | Info | Warn | Error | Fatal

  function LevelName(l: Level): string
  {
    match l
    case Trace => "trace"
    case Debug => "debug"
    case Info => "info"
    case Warn => "warn"
    case Error => "error"
    case Fatal => "fatal"
  }

  /** `logger[s]` is a logging method exactly when `s` names one of the six
      levels; any other string indexes something that is not a level method. */
  function ParseLevel(s: string): (r: Option<Level>)
    ensures r.Some? ==> LevelName(r.value) == s
    ensures r.None? ==> forall l: Level :: LevelName(l) != s
  {
    if s == "trace" then Some(Trace)
    else if s == "debug" then Some(Debug)
    else if s == "info" then Some(Info)
    else if s == "warn" then Some(Warn)
    else if s == "error" then Some(Error)
    else if s == "fatal" then Some(Fatal)
    else None
  }

  /** Parsing a level's own name gives the level back. */
  lemma ParseLevelName(l: Level)
    ensures ParseLevel(LevelName(l)) == Some(l)
  {
  }

  /** The record message `util.format('%s %s', ctx.method, ctx.originalUrl)`: with two
      string arguments the format yields them joined by one space. */
  function Message(verb: string, url: string): string
  {
    verb + " " + url
  }

  /** Index of the first space in `s`, or `|s|` when there is none. */
  function SpaceIndex(s: string): (i: nat)
    ensures i <= |s|
    ensures forall j :: 0 <= j < i ==> s[j] != ' '
    ensures i < |s| ==> s[i] == ' '
  {
    if |s| == 0 then 0
    else if s[0] == ' ' then 0
    else 1 + SpaceIndex(s[1..])
  }

  /** Reads a record message back into its verb and url: everything
      before the first space, and everything after it. */
  function ParseMessage(msg: string): (r: Option<(string, string)>)
    ensures r.Some? ==> ' ' !in r.value.0 && Message(r.value.0, r.value.1) == msg
    ensures r.None? <==> ' ' !in msg
  {
    var i := SpaceIndex(msg);
    if i == |msg| then None
    else
      assert msg == msg[..i] + " " + msg[i + 1..];
      Some((msg[..i], msg[i + 1..]))
  }

  /** A message built from a verb without spaces (every HTTP method
      token) parses back to exactly that verb and url. */
  lemma {:induction false} ParseMessageInverse(verb: string, url: string)
    requires ' ' !in verb
    ensures ParseMessage(Message(verb, url)) == Some((verb, url))
  {
    var msg := Message(verb, url);
    var i := SpaceIndex(msg);
    assert msg[|verb|] == ' ';
    assert forall j :: 0 <= j < |verb| ==> msg[j] == verb[j];
    assert i == |verb|;
    assert msg[..i] == verb;
    assert msg[i + 1..] == url;
  }

  /** Messages from space-free verbs are injective in (verb, url). */
  lemma MessageInjective(m1: string, u1: string, m2: string, u2: string)
    requires ' ' !in m1 && ' ' !in m2
    requires Message(m1, u1) == Message(m2, u2)
    ensures m1 == m2 && u1 == u2
  {
    ParseMessageInverse(m1, u1);
    ParseMessageInverse(m2, u2);
  }
}
